=== FILE: README.md ===
# Minesweeper inference engine — a Dafny model

This project models the deduction engine of a small Minesweeper game: the
board's clue count, the logical sentence "exactly `count` of these `cells` are
mines", and the agent's knowledge base, which records clicked cells, known
mines, known safe cells and an ordered list of sentences, and which after every
click adds the click's sentence, runs one pass of subset inference of the new
sentence against the others, removes repeated sentences and sweeps away the
sentences that resolve. Move selection (a known safe cell first, else a random
one) is modelled too.

Everything is a value: cells are `(int, int)` pairs, a sentence is a
`datatype` whose equality is structural (as the source's `__eq__`), the agent
is a `datatype` holding a `seq<Sentence>`, and every in-place mutation becomes a
function from the old agent to the new one. The loops over the knowledge list
become recursion over the list index that threads a state record (`Pass` for
the comparison loop, `Sweep` for the resolution sweep).

Files (one module each): `wrappers.dfy` (Option), `seqs.dfy` (generic sequence
facts), `grid.dfy` (cells and the 3x3 block), `game.dfy` (the board and its
clue), `logic.dfy` (the sentence), `dedup.dfy` (order-preserving removal of
repeats), `knowledge.dfy` (the knowledge base), `moves.dfy` (move selection),
`soundness.dfy` (the knowledge stays true of a real board), `trace.dfy` (one
worked click showing what the update leaves unresolved).

Behaviour of the code that the model keeps on purpose:

- The inference pass compares only the new sentence with each sentence of the
  list, and skips every sentence structurally equal to the new one.
- Marks made during that pass narrow every sentence of the list, the new one
  included, before later comparisons read them; the inferred sentences are held
  apart (`Pass.inferred`) and no mark made later in the pass narrows them.
- The click's sentence is appended even when it has no cells, and a sentence
  with no cells is never dropped by the sweep, because an empty set is false in
  a Python conditional (`Logic.Truthy`).
- Python iterates sets in an unspecified order; marking a whole set of cells is
  modelled in closed form (`MarkMines`, `MarkSafes`), and
  `MarkMinesAnyOrder` / `MarkSafesAnyOrder` prove that every iteration order
  gives that same result.
- Soundness is not something the code checks: `Soundness.UpdateKnowledgeSound`
  proves it only under explicit assumptions (a valid board, the clicked cell is
  not a mine, the clue is that cell's true clue, and the knowledge was true
  before).

## Model

| member | source | states |
|---|---|---|
| `Game.CloseMines` | minesweeper.py:39-53 | The clue is the number of mines that are on the board, within one row and one column of the cell, and not the cell itself; it is at most 8. |
| `Logic.KnownMines` | minesweeper.py:76-81 | The mine query answers exactly when the sentence has as many cells as its count, and then answers with all its cells. |
| `Logic.KnownSafeCells` | minesweeper.py:85-88 | The safe query answers exactly when the count is zero, and then answers with all its cells. |
| `Logic.KnownMinesExact` | minesweeper.py:76-81 | For a sentence true of a mine layout, the mine query answers exactly when every one of its cells is a mine. |
| `Logic.KnownSafeCellsExact` | minesweeper.py:85-88 | For a sentence true of a mine layout, the safe query answers exactly when none of its cells is a mine. |
| `Logic.MarkMine` | minesweeper.py:91-98 | Marking a mine removes the cell and lowers the count by one exactly when the cell was in the sentence; otherwise nothing changes; the number of non-mine cells the sentence claims is unchanged. |
| `Logic.MarkSafe` | minesweeper.py:101-106 | Marking a safe cell removes it and keeps the count; a cell not in the sentence changes nothing. |
| `Logic.MarkMineHolds` | minesweeper.py:91-98 | Removing one of a true sentence's cells as a mine keeps the sentence true if and only if that cell is a mine. |
| `Logic.MarkSafeHolds` | minesweeper.py:101-106 | Removing one of a true sentence's cells as safe keeps the sentence true if and only if that cell is not a mine. |
| `Logic.DifferenceHolds` | minesweeper.py:154-168 | Subset inference is sound: if both sentences are true and one's cells contain the other's, the extra cells hold exactly the difference of the counts. |
| `KnowledgeBase.MarkCellMine` | minesweeper.py:125-128 | The cell joins the known mines, every sentence at every position is narrowed by it as a mine, none still mentions it, and the list keeps its length and order. |
| `KnowledgeBase.MarkCellSafe` | minesweeper.py:131-134 | The cell joins the known safe cells, every sentence is narrowed by it as safe, none still mentions it, and the list keeps its length and order. |
| `KnowledgeBase.MarkMines` | minesweeper.py:161-163 | Marking a set of cells as mines adds them all to the known mines, narrows every sentence by them (each loses those cells and one from its count per cell it had), leaves no sentence mentioning them, and changes nothing else. |
| `KnowledgeBase.MarkSafes` | minesweeper.py:157-159 | Marking a set of cells safe adds them all to the known safe cells, removes them from every sentence with its count unchanged, and changes nothing else. |
| `KnowledgeBase.MarkMinesInOrder` | minesweeper.py:162-163 | Marking the cells one at a time, in iteration order, makes every visited cell a known mine, keeps the safe cells, board size and clicks, and only removes cells from sentences. |
| `KnowledgeBase.MarkSafesInOrder` | minesweeper.py:158-159 | Marking the cells safe one at a time makes every visited cell a known safe cell, keeps the mines, board size and clicks, and only removes cells from sentences. |
| `KnowledgeBase.MarkMinesAnyOrder` | minesweeper.py:161-163 | Marking the cells of a set as mines one by one, in any duplicate-free order, ends in the same state as marking the whole set at once. |
| `KnowledgeBase.MarkSafesAnyOrder` | minesweeper.py:157-159 | Marking the cells of a set safe one by one, in any duplicate-free order, ends in the same state as marking the whole set at once. |
| `KnowledgeBase.CellNeighbors` | minesweeper.py:226-239 | The click's sentence holds exactly the on-board cells of the 3x3 block other than the clicked cell that are neither known safe nor known mines; its count is the clue minus the number of the nine block positions that are known mines. |
| `KnowledgeBase.Resolve` | minesweeper.py:155-168 | A difference whose count difference is zero is marked safe as a whole; one with as many cells as the count difference is marked as mines as a whole; any other is inferred as a new sentence with the agent untouched; new marks and inferences lie within the difference, and an inference is one neither query resolves. |
| `KnowledgeBase.Compare` | minesweeper.py:151-183 | A sentence equal to the new one is skipped; when one's cells contain the other's, the difference is marked safe if the counts are equal, as mines if its size equals the count difference (every sentence narrowed by it, nothing else changed), and is otherwise inferred as a new sentence; sentences that do not nest change nothing; marks and inferences use only cells of the two sentences. |
| `KnowledgeBase.InferFrom` | minesweeper.py:150-185 | The comparison loop keeps the board size, clicks and list length, only adds known mines, safes and inferences, only removes cells from sentences, leaves sentences with no cells unchanged, marks only cells some starting sentence mentions, and infers only sentences over such cells that neither query resolves (count not zero, not equal to the number of cells). That every position is compared in turn is stated by `KnowledgeBase.InferFromPassTo` and `KnowledgeBase.InferFromComparesEach`. |
| `KnowledgeBase.InferFromKeepsStep` | minesweeper.py:151-183 | The loop run from position `i` compares position `i` with the new sentence first: every mark that comparison makes is still known, and every sentence it infers is still inferred, in place, when that run ends. |
| `KnowledgeBase.InferFromPassTo` | minesweeper.py:151-183 | Comparing positions 0, 1, ..., j-1 in turn, each with the last sentence as the earlier comparisons left both of them, and then running the loop from position `j` ends where the loop run from the start ends; with `j` the list length (`KnowledgeBase.InferFromAll`) the loop is exactly that forward sequence of comparisons. |
| `KnowledgeBase.InferFromComparesEach` | minesweeper.py:151-183 | For every position `j` of the loop run from the start, the comparison of `j` with the new sentence, both as the first `j` comparisons left them, is the next forward step, and every mark it makes and every sentence it infers is still there, in place, when the loop ends. |
| `Dedup.DelDuplicates` | minesweeper.py:241-246 | The result keeps exactly the first occurrence of each sentence, in order: no two results are equal and every input sentence appears in it. |
| `Dedup.DedupFrom` | minesweeper.py:242-245 | The loop that appends each sentence not already collected computes the first-occurrence subsequence. |
| `KnowledgeBase.Visit` | minesweeper.py:250-259 | The visit records the sentence exactly as it stands; it is dropped exactly when it is non-empty and all mines or no mines (an empty query answer is false in the conditional); a dropped all-mines sentence marks its cells as mines, a dropped no-mines one marks them safe, and a kept one changes nothing. |
| `KnowledgeBase.SweepFrom` | minesweeper.py:248-260 | Each visited sentence is its sentence at the start narrowed by the marks of the earlier visits, and is kept exactly when it is then not resolvable; at the end every sentence is narrowed by the marks of all visits, and the known mines and safes have grown by exactly the cells of the dropped sentences. |
| `KnowledgeBase.FinalKnowledge` | minesweeper.py:248-260 | The new list is the subsequence of the positions kept at their visit, each narrowed by the marks of every visit; a position is kept exactly when its sentence, narrowed by the earlier visits' marks, is not resolvable; the known mines and safes grow by exactly the dropped sentences' cells; sentences with no cells are kept. |
| `KnowledgeBase.Click` | minesweeper.py:140-141 | The clicked cell becomes a move and a known safe cell; the list keeps its length and every sentence is only narrowed by the cell as safe, so none still mentions it; the known mines are unchanged. |
| `KnowledgeBase.Infer` | minesweeper.py:144-186 | After appending the click's sentence, the comparison loop, appending the inferences and removing repeats, the list is the loop's list followed by its inferences, with every repeat after the first occurrence removed and the order kept; board size and clicks are kept; the known mines and safes only grow, by cells of the list or the click's sentence; a click sentence with no cells is kept. |
| `KnowledgeBase.UpdateKnowledge` | minesweeper.py:137-187 | After a click the cell is clicked and known safe, known mines and safes only grow, and clicked cells that were all known safe stay all known safe. |
| `KnowledgeBase.EmptyClickSentenceKept` | minesweeper.py:143-146 | A click whose on-board neighbours are all resolved still adds a sentence with no cells, and that sentence is still in the knowledge after the click. |
| `Trace.InferenceMentionsKnownSafe` | minesweeper.py:166-168 | On a 1x3 row with sentences `{(0,0),(0,1),(0,2)} = 1` and `{(0,0),(0,1)} = 0`, appending the new sentence `{(0,0)} = 0` (stated directly, not built from a click), running the comparison loop, removing repeats and sweeping ends with (0,1) known safe while the remaining inferred sentence `{(0,1),(0,2)} = 1` still mentions it. |
| `Trace.ResolvableSentenceKept` | minesweeper.py:248-260 | In the same update the sweep keeps `{(0,2)} = 1`, which a later visit's mark made resolvable. |
| `Moves.SafeMove` | minesweeper.py:192-202 | The answer is absent exactly when every known safe cell was clicked; otherwise it is a known safe cell not yet clicked. |
| `Moves.RandomMove` | minesweeper.py:205-224 | Given the drawn on-board cell, the answer is that cell exactly when it is neither clicked nor a known mine, and absent otherwise. |
| `Moves.RandomMoveMissesCandidate` | minesweeper.py:210-220 | A single draw can answer "no move" while an unclicked cell that is not a known mine remains. |
| `Moves.RandomCandidate` | minesweeper.py:205-224 | Corrected fallback: absent exactly when no on-board cell is both unclicked and not a known mine; otherwise one such cell. |
| `Moves.NextMoveAsWritten` | main.py:210-217 | The policy as written: a known safe unclicked cell first, else the single draw; absent exactly when every safe cell is clicked and the draw is clicked or a known mine, so it can stop while candidates remain. |
| `Moves.NextMove` | main.py:210-217 | Corrected policy: whenever a known safe cell is unclicked the answer is a known safe cell; otherwise any remaining candidate; absent exactly when neither exists; never a clicked cell. |
| `Soundness.NewAgentConsistent` | minesweeper.py:112-122 | A fresh agent's knowledge is true of every board. |
| `Soundness.NeighborsHold` | minesweeper.py:226-239 | The sentence built from a clicked non-mine cell's true clue is true of the board, given the agent's knowledge was. |
| `Soundness.CompareConsistent` | minesweeper.py:151-183 | Every comparison step keeps the agent's knowledge and the inferred sentences true of the board. |
| `Soundness.InferConsistent` | minesweeper.py:150-185 | The whole comparison loop keeps the knowledge and the inferred sentences true of the board. |
| `Soundness.SweepConsistent` | minesweeper.py:248-260 | The resolution sweep marks only real mines as mines and only non-mines as safe. |
| `Soundness.UpdateKnowledgeSound` | minesweeper.py:137-187 | A click on a non-mine cell with its true clue keeps every known mine a mine, every known safe cell free of mines, every sentence true, and the known mines and safes disjoint. |

## Findings

| source | as written | input that shows it | evidently intended | confidence | as-written member | corrected member |
|---|---|---|---|---|---|---|
| minesweeper.py:205-224 | one random draw; `None` when the drawn cell was clicked or is a known mine | 1x2 board, (0, 0) clicked, draw (0, 0): `None` although (0, 1) is open; reachable the same way on an 8x8 board whose first click at (0, 0) shows 1 | `None` only when no unclicked non-mine cell remains, since main.py:212-216 reads `None` as "all mines found" and stops autoplay | high; not executed | `Moves.RandomMove`, `Moves.RandomMoveMissesCandidate`, `Moves.NextMoveAsWritten` | `Moves.RandomCandidate`, `Moves.NextMove` |

## Left out

- Random mine placement in the board constructor (minesweeper.py:8-30): the board is taken as a given set of mine cells; `ValidBoard` says they lie on the board. The placement loop also never ends when more mines are asked for than cells exist.
- `mine_field` (minesweeper.py:32-34) is a plain lookup; the model asks `cell in b.mines`.
- `won` and `mines_found` (minesweeper.py:56-57, 30): `mines_found` is never updated, so the check is a constant comparison with no engine logic.
- `__str__` (minesweeper.py:72-73): formatting only.
- The random draw of `do_move_randomly` (minesweeper.py:210-211): the drawn cell is a parameter of `RandomMove`, required to be on the board; uniformity of the draw is not modelled.
- The arbitrary `pop` of `do_safe_move` and of the corrected fallback: modelled as an unspecified choice among the allowed cells.
- `KnowledgeBase.UpdateKnowledge` does not promise that no remaining sentence mentions a known mine or safe cell: the inferences of the comparison loop join the list only after the loop (minesweeper.py:166-168, 185), so marks made later in the same loop never narrow them; `Trace.InferenceMentionsKnownSafe` exhibits it.
- `KnowledgeBase.FinalKnowledge` does not promise that every remaining sentence is unresolvable: the sweep tests each sentence only at its own visit (minesweeper.py:250-259), so a sentence narrowed by a later visit's marks stays; `Trace.ResolvableSentenceKept` exhibits it.
- Idempotence of a repeated click and soundness without assumptions: the code neither checks nor guarantees them; soundness is proved only under the assumptions stated above.
- Everything in main.py other than the move policy (window, images, sound, mouse, timing, flags): presentation with no engine logic.
- Python integers are unbounded, as Dafny's are, so no overflow is modelled.

=== FILE: dedup.dfy ===
/** Order-preserving removal of repeated sentences from the knowledge list. */
module Dedup {
  import opened Seqs

  /** Position `i` holds the first occurrence of its element. */
  function FirstMask<T(==)>(ks: seq<T>): (m: seq<bool>)
    ensures |m| == |ks|
  {
    seq(|ks|, i requires 0 <= i < |ks| => ks[i] !in ks[..i])
  }

  /** Reference: the subsequence of `ks` made of the first occurrence of each element. */
  function FirstOccurrences<T(==)>(ks: seq<T>): seq<T> {
    Select(ks, FirstMask(ks))
  }

  /** The loop: walk `ks` from position `i`, appending each element not already in `unique`. */
  function DedupFrom<T(==)>(ks: seq<T>, i: nat, unique: seq<T>): (r: seq<T>)
    requires i <= |ks|
    requires unique == FirstOccurrences(ks[..i])
    ensures r == FirstOccurrences(ks)
    decreases |ks| - i
  {
    if i == |ks| then
      assert ks[..i] == ks;
      unique
    else
      var next := if ks[i] in unique then unique else unique + [ks[i]];
      FirstOccurrencesStep(ks, i);
      FirstOccurrencesElems(ks[..i]);
      DedupFrom(ks, i + 1, next)
  }

  /** Keep the first of every group of equal elements, in their original order. */
  function DelDuplicates<T(==)>(ks: seq<T>): (r: seq<T>)
    ensures r == Select(ks, FirstMask(ks))
    ensures NoDup(r)
    ensures forall i :: 0 <= i < |ks| ==> ks[i] in r
    ensures forall i :: 0 <= i < |r| ==> r[i] in ks
  {
    FirstOccurrencesNoDup(ks);
    FirstOccurrencesElems(ks);
    assert ks[..0] == [];
    DedupFrom(ks, 0, [])
  }

  /** Selecting from a sequence extended by one element. */
  lemma {:induction false} SelectSnoc<T>(s: seq<T>, keep: seq<bool>, x: T, b: bool)
    requires |keep| == |s|
    ensures Select(s + [x], keep + [b]) == Select(s, keep) + (if b then [x] else [])
  {
    if |s| > 0 {
      assert (s + [x])[1..] == s[1..] + [x];
      assert (keep + [b])[1..] == keep[1..] + [b];
      SelectSnoc(s[1..], keep[1..], x, b);
    }
  }

  /** The reference on a prefix one element longer. */
  lemma FirstOccurrencesStep<T>(ks: seq<T>, i: nat)
    requires i < |ks|
    ensures FirstOccurrences(ks[..i + 1])
         == FirstOccurrences(ks[..i]) + (if ks[i] in ks[..i] then [] else [ks[i]])
  {
    var p := ks[..i];
    assert ks[..i + 1] == p + [ks[i]];
    assert FirstMask(ks[..i + 1]) == FirstMask(p) + [ks[i] !in p] by {
      forall j | 0 <= j < i ensures (p + [ks[i]])[..j] == p[..j] { }
    }
    SelectSnoc(p, FirstMask(p), ks[i], ks[i] !in p);
  }

  /** Every element survives: its first occurrence is kept. */
  lemma {:induction false} FirstOccurrencesElems<T>(ks: seq<T>)
    ensures forall x :: x in FirstOccurrences(ks) <==> x in ks
  {
    if |ks| > 0 {
      var n := |ks| - 1;
      FirstOccurrencesElems(ks[..n]);
      FirstOccurrencesStep(ks, n);
      assert ks[..n + 1] == ks;
      assert ks == ks[..n] + [ks[n]];
    }
  }

  /** No element is kept twice. */
  lemma {:induction false} FirstOccurrencesNoDup<T>(ks: seq<T>)
    ensures NoDup(FirstOccurrences(ks))
  {
    if |ks| > 0 {
      var n := |ks| - 1;
      FirstOccurrencesNoDup(ks[..n]);
      FirstOccurrencesElems(ks[..n]);
      FirstOccurrencesStep(ks, n);
      assert ks[..n + 1] == ks;
    }
  }
}

=== FILE: game.dfy ===
/** The game board: its size, its mines, and the clue a revealed cell shows. */
module Game {
  import opened Seqs
  import opened Grid

  /** A board of `height` rows and `width` columns with the given mine cells. */
  datatype Board = Board(height: int, width: int, mines: set<Cell>)

  /** Every mine lies on the board. */
  predicate ValidBoard(b: Board) {
    forall m :: m in b.mines ==> InBounds(b.height, b.width, m)
  }

  /** The mines a revealed `cell` reports: on the board, in its 3x3 block, other than itself. */
  function MinesAround(b: Board, cell: Cell): set<Cell> {
    set m | m in b.mines && InBounds(b.height, b.width, m) && InBlock(cell, m) && m != cell
  }

  /** The clue of `cell`: visit the 3x3 block, skip `cell`, and count the
      on-board positions that hold a mine. */
  method CloseMines(b: Board, cell: Cell) returns (count: nat)
    ensures count == |MinesAround(b, cell)|
    ensures count <= 8
  {
    var block := Block(cell);
    count := 0;
    for k := 0 to |block|
      invariant count == |Elems(block[..k]) * MinesAround(b, cell)|
    {
      var m := block[k];
      ClueStep(b, cell, k);
      if m != cell && InBounds(b.height, b.width, m) && m in b.mines {
        count := count + 1;
      }
    }
    assert block[..|block|] == block;
    AroundWithinBlock(b, cell);
  }

  /** One more block position adds one reported mine exactly when the loop's test counts it. */
  lemma ClueStep(b: Board, cell: Cell, k: nat)
    requires k < 9
    ensures var block := Block(cell); var m := block[k];
      |Elems(block[..k + 1]) * MinesAround(b, cell)|
      == |Elems(block[..k]) * MinesAround(b, cell)|
         + (if m != cell && InBounds(b.height, b.width, m) && m in b.mines then 1 else 0)
  {
    var block := Block(cell);
    var m := block[k];
    PrefixHits(block, k, MinesAround(b, cell));
    assert InBlock(cell, m);
    assert m in MinesAround(b, cell) <==> m != cell && InBounds(b.height, b.width, m) && m in b.mines;
  }

  /** The reported mines are the block's hits, and there are at most eight of them. */
  lemma AroundWithinBlock(b: Board, cell: Cell)
    ensures Elems(Block(cell)) * MinesAround(b, cell) == MinesAround(b, cell)
    ensures |MinesAround(b, cell)| <= 8
  {
    var around := MinesAround(b, cell);
    var others := BlockCells(cell) - {cell};
    assert around <= others;
    assert |others| == 8;
    assert others == around + (others - around);
  }
}

=== FILE: grid.dfy ===
/** Board coordinates and the 3x3 block around a cell. */
module Grid {
  import opened Seqs

  /** A (row, column) coordinate, 0-indexed on the board. */
  type Cell = (int, int)

  predicate InBounds(height: int, width: int, c: Cell) {
    0 <= c.0 < height && 0 <= c.1 < width
  }

  /** `m` lies within one row and one column of `c`; `c` itself included. */
  predicate InBlock(c: Cell, m: Cell) {
    c.0 - 1 <= m.0 <= c.0 + 1 && c.1 - 1 <= m.1 <= c.1 + 1
  }

  /** The 3x3 block around `c`, row by row and column by column: the order of
      the nested `range(x - 1, x + 2)` loops of the game and the agent. */
  function Block(c: Cell): (b: seq<Cell>)
    ensures |b| == 9
    ensures NoDup(b)
    ensures forall m :: m in b <==> InBlock(c, m)
  {
    var (i, j) := c;
    [(i - 1, j - 1), (i - 1, j), (i - 1, j + 1),
     (i, j - 1), (i, j), (i, j + 1),
     (i + 1, j - 1), (i + 1, j), (i + 1, j + 1)]
  }

  /** The nine cells of the block as a set. */
  function BlockCells(c: Cell): (r: set<Cell>)
    ensures |r| == 9
    ensures forall m :: m in r <==> InBlock(c, m)
  {
    ElemsDistinctCard(Block(c));
    Elems(Block(c))
  }
}

=== FILE: knowledge.dfy ===
/** The agent's knowledge base: what it has clicked, the cells it knows to be
    mines or safe, and its ordered list of sentences, with the operations that
    grow that knowledge after each click. */
module KnowledgeBase {
  import opened Seqs
  import opened Grid
  import opened Logic
  import opened Dedup

  datatype Agent = Agent(
    height: int,
    width: int,
    movesMade: set<Cell>,
    mines: set<Cell>,
    safes: set<Cell>,
    knowledge: seq<Sentence>)

  /** A fresh agent for a `height` x `width` board knows nothing. */
  function NewAgent(height: int, width: int): Agent {
    Agent(height, width, {}, {}, {}, [])
  }

  /** Same board size and same clicked cells. */
  predicate SameFrame(a: Agent, r: Agent) {
    r.height == a.height && r.width == a.width && r.movesMade == a.movesMade
  }

  /** `r` knows every mine, safe cell and move `a` knows. */
  predicate Grows(a: Agent, r: Agent) {
    a.mines <= r.mines && a.safes <= r.safes && a.movesMade <= r.movesMade
  }

  /** Same number of sentences, each with at most the cells it had in `a`. */
  predicate Narrowed(a: Agent, r: Agent) {
    && |r.knowledge| == |a.knowledge|
    && forall k :: 0 <= k < |a.knowledge| ==> r.knowledge[k].cells <= a.knowledge[k].cells
  }

  /** No sentence mentions a cell of `S`. */
  predicate Purged(a: Agent, S: set<Cell>) {
    forall k :: 0 <= k < |a.knowledge| ==> a.knowledge[k].cells !! S
  }

  // ---------------------------------------------------------------------------
  // Marking cells

  /** Record `c` as a mine and narrow every sentence by it. */
  function MarkCellMine(a: Agent, c: Cell): (r: Agent)
    ensures r.mines == a.mines + {c} && r.safes == a.safes && SameFrame(a, r)
    ensures |r.knowledge| == |a.knowledge|
    ensures forall k :: 0 <= k < |a.knowledge| ==> r.knowledge[k] == MarkMine(a.knowledge[k], c)
    ensures Purged(r, {c})
  {
    a.(mines := a.mines + {c},
       knowledge := seq(|a.knowledge|, k requires 0 <= k < |a.knowledge| => MarkMine(a.knowledge[k], c)))
  }

  /** Record `c` as safe and narrow every sentence by it. */
  function MarkCellSafe(a: Agent, c: Cell): (r: Agent)
    ensures r.safes == a.safes + {c} && r.mines == a.mines && SameFrame(a, r)
    ensures |r.knowledge| == |a.knowledge|
    ensures forall k :: 0 <= k < |a.knowledge| ==> r.knowledge[k] == MarkSafe(a.knowledge[k], c)
    ensures Purged(r, {c})
  {
    a.(safes := a.safes + {c},
       knowledge := seq(|a.knowledge|, k requires 0 <= k < |a.knowledge| => MarkSafe(a.knowledge[k], c)))
  }

  /** Record every cell of `S` as a mine. */
  function MarkMines(a: Agent, S: set<Cell>): (r: Agent)
    ensures r.mines == a.mines + S && r.safes == a.safes && SameFrame(a, r)
    ensures |r.knowledge| == |a.knowledge|
    ensures forall k :: 0 <= k < |a.knowledge| ==> r.knowledge[k] == NarrowMines(a.knowledge[k], S)
    ensures Purged(r, S)
  {
    a.(mines := a.mines + S,
       knowledge := seq(|a.knowledge|, k requires 0 <= k < |a.knowledge| => NarrowMines(a.knowledge[k], S)))
  }

  /** Record every cell of `S` as safe. */
  function MarkSafes(a: Agent, S: set<Cell>): (r: Agent)
    ensures r.safes == a.safes + S && r.mines == a.mines && SameFrame(a, r)
    ensures |r.knowledge| == |a.knowledge|
    ensures forall k :: 0 <= k < |a.knowledge| ==> r.knowledge[k] == NarrowSafes(a.knowledge[k], S)
    ensures Purged(r, S)
  {
    a.(safes := a.safes + S,
       knowledge := seq(|a.knowledge|, k requires 0 <= k < |a.knowledge| => NarrowSafes(a.knowledge[k], S)))
  }

  /** Marking the cells of a set as mines one at a time, in the order a set
      iteration yields them: every visited cell becomes a known mine, and the
      list keeps its length with every sentence only losing cells. */
  function MarkMinesInOrder(a: Agent, order: seq<Cell>): (r: Agent)
    ensures r.mines == a.mines + Elems(order) && r.safes == a.safes && SameFrame(a, r)
    ensures Narrowed(a, r)
    decreases |order|
  {
    if |order| == 0 then a
    else
      assert Elems(order) == {order[0]} + Elems(order[1..]);
      MarkMinesInOrder(MarkCellMine(a, order[0]), order[1..])
  }

  /** The same for marking cells safe one at a time. */
  function MarkSafesInOrder(a: Agent, order: seq<Cell>): (r: Agent)
    ensures r.safes == a.safes + Elems(order) && r.mines == a.mines && SameFrame(a, r)
    ensures Narrowed(a, r)
    decreases |order|
  {
    if |order| == 0 then a
    else
      assert Elems(order) == {order[0]} + Elems(order[1..]);
      MarkSafesInOrder(MarkCellSafe(a, order[0]), order[1..])
  }

  lemma MarkMinesStep(a: Agent, c: Cell, S: set<Cell>)
    requires c in S
    ensures MarkMines(MarkCellMine(a, c), S - {c}) == MarkMines(a, S)
  {
    var l := MarkMines(MarkCellMine(a, c), S - {c});
    var r := MarkMines(a, S);
    forall k | 0 <= k < |a.knowledge| ensures l.knowledge[k] == r.knowledge[k] {
      NarrowMinesStep(a.knowledge[k], c, S);
    }
  }

  lemma MarkSafesStep(a: Agent, c: Cell, S: set<Cell>)
    requires c in S
    ensures MarkSafes(MarkCellSafe(a, c), S - {c}) == MarkSafes(a, S)
  {
    var l := MarkSafes(MarkCellSafe(a, c), S - {c});
    var r := MarkSafes(a, S);
    forall k | 0 <= k < |a.knowledge| ensures l.knowledge[k] == r.knowledge[k] {
      NarrowSafesStep(a.knowledge[k], c, S);
    }
  }

  /** Whatever order the cells of a set are visited in, marking them one by one
      as mines ends in the same state as marking the whole set at once. */
  lemma {:induction false} MarkMinesAnyOrder(a: Agent, order: seq<Cell>)
    requires NoDup(order)
    ensures MarkMinesInOrder(a, order) == MarkMines(a, Elems(order))
    decreases |order|
  {
    if |order| == 0 {
      assert Elems(order) == {};
      var r := MarkMines(a, {});
      forall k | 0 <= k < |a.knowledge| ensures r.knowledge[k] == a.knowledge[k] {
        assert a.knowledge[k].cells * {} == {};
      }
    } else {
      NoDupTail(order);
      MarkMinesAnyOrder(MarkCellMine(a, order[0]), order[1..]);
      MarkMinesStep(a, order[0], Elems(order));
    }
  }

  /** The same for marking cells safe. */
  lemma {:induction false} MarkSafesAnyOrder(a: Agent, order: seq<Cell>)
    requires NoDup(order)
    ensures MarkSafesInOrder(a, order) == MarkSafes(a, Elems(order))
    decreases |order|
  {
    if |order| == 0 {
      assert Elems(order) == {};
      var r := MarkSafes(a, {});
      forall k | 0 <= k < |a.knowledge| ensures r.knowledge[k] == a.knowledge[k] { }
    } else {
      NoDupTail(order);
      MarkSafesAnyOrder(MarkCellSafe(a, order[0]), order[1..]);
      MarkSafesStep(a, order[0], Elems(order));
    }
  }

  // ---------------------------------------------------------------------------
  // The sentence a click produces

  /** The sentence for a click on `cell` showing clue `n`: its unresolved
      on-board neighbours, with `n` reduced once per block position (all nine,
      `cell` included) that is a known mine. */
  function CellNeighbors(a: Agent, cell: Cell, n: int): (r: Sentence)
    ensures forall m :: m in r.cells <==>
      InBlock(cell, m) && m != cell && InBounds(a.height, a.width, m) && m !in a.safes && m !in a.mines
    ensures r.count == n - |BlockCells(cell) * a.mines|
  {
    var block := Block(cell);
    CountInDistinct(block, a.mines);
    var unresolved := set m | m in block && InBounds(a.height, a.width, m) && m != cell
                                && m !in a.safes && m !in a.mines;
    Sentence(unresolved, n - CountIn(block, a.mines))
  }

  // ---------------------------------------------------------------------------
  // Subset inference: the new sentence against every other sentence

  /** State threaded through the comparison loop: the agent, whose sentences
      every mark narrows, and the inferred sentences, which no mark touches
      until they join the knowledge after the loop. */
  datatype Pass = Pass(agent: Agent, inferred: seq<Sentence>)

  /** What resolving a difference `diff` holding `d` mines does to the pass:
      with `d == 0` every cell of `diff` is marked safe; with exactly `d` cells
      every one is marked a mine; otherwise the sentence `diff = d` is inferred
      and the agent is left as it was. */
  predicate Resolved(p: Pass, r: Pass, diff: set<Cell>, d: int) {
    if d == 0 then r == Pass(MarkSafes(p.agent, diff), p.inferred)
    else if |diff| == d then r == Pass(MarkMines(p.agent, diff), p.inferred)
    else r == Pass(p.agent, p.inferred + [Sentence(diff, d)])
  }

  /** A pass step keeps the board and the clicks, only adds to mines, safes and
      inferences, and only removes cells from sentences. */
  predicate PassStep(p: Pass, r: Pass) {
    && SameFrame(p.agent, r.agent) && Grows(p.agent, r.agent) && Narrowed(p.agent, r.agent)
    && |p.inferred| <= |r.inferred| && r.inferred[..|p.inferred|] == p.inferred
    && (forall k :: 0 <= k < |p.agent.knowledge| && p.agent.knowledge[k].cells == {} ==>
          r.agent.knowledge[k] == p.agent.knowledge[k])
  }

  /** Every cell some sentence of `ks` mentions. */
  function AllCells(ks: seq<Sentence>): set<Cell> {
    set k, c | 0 <= k < |ks| && c in ks[k].cells :: c
  }

  /** Sentences that only lose cells mention no new cell. */
  lemma NarrowedCells(a: Agent, r: Agent)
    requires Narrowed(a, r)
    ensures AllCells(r.knowledge) <= AllCells(a.knowledge)
  {
    forall c | c in AllCells(r.knowledge) ensures c in AllCells(a.knowledge) {
      var k :| 0 <= k < |r.knowledge| && c in r.knowledge[k].cells;
      assert c in a.knowledge[k].cells;
    }
  }

  /** The new marks and the new inference of one step come from `diff`, and an
      inferred sentence is one that neither query resolves. */
  predicate DrawnFrom(p: Pass, r: Pass, cells: set<Cell>) {
    && r.agent.mines <= p.agent.mines + cells
    && r.agent.safes <= p.agent.safes + cells
    && forall j :: |p.inferred| <= j < |r.inferred| ==>
         r.inferred[j].cells <= cells && r.inferred[j].count != 0
         && |r.inferred[j].cells| != r.inferred[j].count
  }

  /** Resolve a difference `diff` between two nested sentences whose counts are `big` and `small`. */
  function Resolve(p: Pass, diff: set<Cell>, big: int, small: int): (r: Pass)
    ensures PassStep(p, r)
    ensures Resolved(p, r, diff, big - small)
    ensures DrawnFrom(p, r, diff)
  {
    if big == small then Pass(MarkSafes(p.agent, diff), p.inferred)
    else if |diff| == big - small then Pass(MarkMines(p.agent, diff), p.inferred)
    else Pass(p.agent, p.inferred + [Sentence(diff, big - small)])
  }

  /** Compare a sentence `s` of the knowledge with the new sentence `n`, both
      as they stand now: skip when they are equal; otherwise when one's cells
      contain the other's, resolve the difference of the larger minus the
      smaller with the difference of their counts. */
  function Compare(p: Pass, s: Sentence, n: Sentence): (r: Pass)
    ensures PassStep(p, r)
    ensures s == n ==> r == p
    ensures s != n && n.cells <= s.cells ==> Resolved(p, r, s.cells - n.cells, s.count - n.count)
    ensures s != n && !(n.cells <= s.cells) && s.cells <= n.cells
            ==> Resolved(p, r, n.cells - s.cells, n.count - s.count)
    ensures !(n.cells <= s.cells) && !(s.cells <= n.cells) ==> r == p
    ensures DrawnFrom(p, r, s.cells + n.cells)
  {
    if s == n then p
    else if n.cells <= s.cells then Resolve(p, s.cells - n.cells, s.count, n.count)
    else if s.cells <= n.cells then Resolve(p, n.cells - s.cells, n.count, s.count)
    else p
  }

  /** The comparison loop from position `i`: the new sentence is the last one,
      and each position is read as earlier marks have left it. Every cell it
      marks and every sentence it infers come from the cells of the sentences
      it started with. */
  function InferFrom(p: Pass, i: nat): (r: Pass)
    requires 0 < |p.agent.knowledge| && i <= |p.agent.knowledge|
    ensures PassStep(p, r)
    ensures DrawnFrom(p, r, AllCells(p.agent.knowledge))
    decreases |p.agent.knowledge| - i
  {
    if i == |p.agent.knowledge| then p
    else
      var ks := p.agent.knowledge;
      var q := Compare(p, ks[i], ks[|ks| - 1]);
      var r := InferFrom(q, i + 1);
      assert ks[i].cells + ks[|ks| - 1].cells <= AllCells(ks) by {
        forall c | c in ks[i].cells + ks[|ks| - 1].cells ensures c in AllCells(ks) {
          if c in ks[i].cells { assert c in ks[i].cells; } else { assert c in ks[|ks| - 1].cells; }
        }
      }
      NarrowedCells(p.agent, q.agent);
      forall j | |p.inferred| <= j < |r.inferred|
        ensures r.inferred[j].cells <= AllCells(ks) && r.inferred[j].count != 0
                && |r.inferred[j].cells| != r.inferred[j].count
      {
        if j < |q.inferred| {
          assert r.inferred[j] == r.inferred[..|q.inferred|][j];
        }
      }
      r
  }

  /** The loop does compare position `i` with the new sentence: whatever that
      comparison marks or infers is still there when the loop ends. */
  lemma InferFromKeepsStep(p: Pass, i: nat)
    requires 0 < |p.agent.knowledge| && i < |p.agent.knowledge|
    ensures var ks := p.agent.knowledge; var q := Compare(p, ks[i], ks[|ks| - 1]);
      Grows(q.agent, InferFrom(p, i).agent) && InferFrom(p, i).inferred[..|q.inferred|] == q.inferred
  {
    var ks := p.agent.knowledge;
    assert InferFrom(p, i) == InferFrom(Compare(p, ks[i], ks[|ks| - 1]), i + 1);
  }

  /** The comparison loop read forwards: the pass after comparing positions
      `0 .. j-1` in turn with the last sentence, each as earlier marks left it. */
  function PassTo(p: Pass, j: nat): (r: Pass)
    requires 0 < |p.agent.knowledge| && j <= |p.agent.knowledge|
    ensures |r.agent.knowledge| == |p.agent.knowledge|
    decreases j
  {
    if j == 0 then p else ForwardStep(PassTo(p, j - 1), j - 1)
  }

  /** Comparing position `i` with the last sentence. */
  function ForwardStep(q: Pass, i: nat): (r: Pass)
    requires i < |q.agent.knowledge|
    ensures |r.agent.knowledge| == |q.agent.knowledge|
  {
    Compare(q, q.agent.knowledge[i], q.agent.knowledge[|q.agent.knowledge| - 1])
  }

  /** Running the loop from position `j` after the first `j` comparisons is
      running it from the start. */
  lemma {:induction false} InferFromPassTo(p: Pass, j: nat)
    requires 0 < |p.agent.knowledge| && j <= |p.agent.knowledge|
    ensures InferFrom(PassTo(p, j), j) == InferFrom(p, 0)
    decreases j
  {
    if j > 0 {
      var i: nat := j - 1;
      InferFromPassTo(p, i);
      PassToStep(p, i);
    }
  }

  /** One more forward step leaves the rest of the loop's run unchanged. */
  lemma PassToStep(p: Pass, i: nat)
    requires 0 < |p.agent.knowledge| && i < |p.agent.knowledge|
    ensures InferFrom(PassTo(p, i), i) == InferFrom(PassTo(p, i + 1), i + 1)
  {
    PassToForward(p, i);
    InferFromUnfold(PassTo(p, i), i);
  }

  /** The forward pass to `i + 1` is one forward step after the pass to `i`. */
  lemma PassToForward(p: Pass, i: nat)
    requires 0 < |p.agent.knowledge| && i < |p.agent.knowledge|
    ensures i < |PassTo(p, i).agent.knowledge| && PassTo(p, i + 1) == ForwardStep(PassTo(p, i), i)
  {
  }

  /** One step of the loop is a forward step. */
  lemma InferFromUnfold(q: Pass, i: nat)
    requires 0 < |q.agent.knowledge| && i < |q.agent.knowledge|
    ensures InferFrom(q, i) == InferFrom(ForwardStep(q, i), i + 1)
  {
  }

  /** Position `j` is compared with the last sentence, both as the first `j`
      comparisons left them, and whatever that comparison marks or infers is
      still there when the loop run from the start ends. */
  lemma InferFromComparesEach(p: Pass, j: nat)
    requires 0 < |p.agent.knowledge| && j < |p.agent.knowledge|
    ensures var q := PassTo(p, j); var ks := q.agent.knowledge;
      var c := Compare(q, ks[j], ks[|ks| - 1]);
      PassTo(p, j + 1) == c
      && Grows(c.agent, InferFrom(p, 0).agent)
      && |c.inferred| <= |InferFrom(p, 0).inferred| && InferFrom(p, 0).inferred[..|c.inferred|] == c.inferred
  {
    InferFromPassTo(p, j);
    InferFromKeepsStep(PassTo(p, j), j);
  }

  // ---------------------------------------------------------------------------
  // Resolution sweep

  /** A sentence the sweep resolves and drops: non-empty, and all mines or no mines. */
  predicate Resolvable(s: Sentence) {
    s.cells != {} && (|s.cells| == s.count || s.count == 0)
  }

  /** What visiting `v` does to any sentence `s`: nothing when `v` was kept;
      otherwise `s` is narrowed by the cells of `v`, as mines when `v` had as
      many mines as cells and as safe cells when it had none. */
  function VisitEffect(s: Sentence, v: Sentence, kept: bool): Sentence {
    if kept then s
    else if |v.cells| == v.count then NarrowMines(s, v.cells)
    else NarrowSafes(s, v.cells)
  }

  /** The cells a visit of `v` marks as mines. */
  function MinesMarked(v: Sentence, kept: bool): set<Cell> {
    if !kept && |v.cells| == v.count then v.cells else {}
  }

  /** The cells a visit of `v` marks as safe. */
  function SafesMarked(v: Sentence, kept: bool): set<Cell> {
    if !kept && |v.cells| != v.count then v.cells else {}
  }

  /** `s` after the effects of visits `lo` to `hi - 1` of a visit record
      (`vs` the sentences as visited, `ks` whether each was kept), in order. */
  function Replay(s: Sentence, vs: seq<Sentence>, ks: seq<bool>, lo: nat, hi: nat): Sentence
    requires lo <= hi <= |vs| && hi <= |ks|
    decreases hi
  {
    if lo == hi then s else VisitEffect(Replay(s, vs, ks, lo, hi - 1), vs[hi - 1], ks[hi - 1])
  }

  /** The cells visits `lo` to `hi - 1` marked as mines. */
  function DroppedMines(vs: seq<Sentence>, ks: seq<bool>, lo: nat, hi: nat): set<Cell>
    requires lo <= hi <= |vs| && hi <= |ks|
    decreases hi
  {
    if lo == hi then {} else DroppedMines(vs, ks, lo, hi - 1) + MinesMarked(vs[hi - 1], ks[hi - 1])
  }

  /** The cells visits `lo` to `hi - 1` marked as safe. */
  function DroppedSafes(vs: seq<Sentence>, ks: seq<bool>, lo: nat, hi: nat): set<Cell>
    requires lo <= hi <= |vs| && hi <= |ks|
    decreases hi
  {
    if lo == hi then {} else DroppedSafes(vs, ks, lo, hi - 1) + SafesMarked(vs[hi - 1], ks[hi - 1])
  }

  /** Replaying from visit `j` is applying visit `j` first, then the rest. */
  lemma {:induction false} ReplayShift(s: Sentence, vs: seq<Sentence>, ks: seq<bool>, j: nat, i: nat)
    requires j < i <= |vs| && i <= |ks|
    ensures Replay(VisitEffect(s, vs[j], ks[j]), vs, ks, j + 1, i) == Replay(s, vs, ks, j, i)
    decreases i
  {
    if i > j + 1 {
      ReplayShift(s, vs, ks, j, i - 1);
    }
  }

  /** The cells marked as mines from visit `j` on are those of visit `j` and those after it. */
  lemma {:induction false} DroppedMinesShift(vs: seq<Sentence>, ks: seq<bool>, j: nat, i: nat)
    requires j < i <= |vs| && i <= |ks|
    ensures DroppedMines(vs, ks, j, i) == MinesMarked(vs[j], ks[j]) + DroppedMines(vs, ks, j + 1, i)
    decreases i
  {
    if i > j + 1 {
      DroppedMinesShift(vs, ks, j, i - 1);
      var head, last := MinesMarked(vs[j], ks[j]), MinesMarked(vs[i - 1], ks[i - 1]);
      assert DroppedMines(vs, ks, j, i) == (head + DroppedMines(vs, ks, j + 1, i - 1)) + last;
      assert DroppedMines(vs, ks, j + 1, i) == DroppedMines(vs, ks, j + 1, i - 1) + last;
    }
  }

  /** The cells marked safe from visit `j` on are those of visit `j` and those after it. */
  lemma {:induction false} DroppedSafesShift(vs: seq<Sentence>, ks: seq<bool>, j: nat, i: nat)
    requires j < i <= |vs| && i <= |ks|
    ensures DroppedSafes(vs, ks, j, i) == SafesMarked(vs[j], ks[j]) + DroppedSafes(vs, ks, j + 1, i)
    decreases i
  {
    if i > j + 1 {
      DroppedSafesShift(vs, ks, j, i - 1);
      var head, last := SafesMarked(vs[j], ks[j]), SafesMarked(vs[i - 1], ks[i - 1]);
      assert DroppedSafes(vs, ks, j, i) == (head + DroppedSafes(vs, ks, j + 1, i - 1)) + last;
      assert DroppedSafes(vs, ks, j + 1, i) == DroppedSafes(vs, ks, j + 1, i - 1) + last;
    }
  }

  /** No visit changes a sentence with no cells. */
  lemma {:induction false} ReplayEmpty(s: Sentence, vs: seq<Sentence>, ks: seq<bool>, lo: nat, hi: nat)
    requires lo <= hi <= |vs| && hi <= |ks|
    requires s.cells == {}
    ensures Replay(s, vs, ks, lo, hi) == s
    decreases hi
  {
    if lo < hi {
      ReplayEmpty(s, vs, ks, lo, hi - 1);
      var v := vs[hi - 1];
      assert s.cells * v.cells == {};
    }
  }

  /** Sweep state: the agent (all sentences, narrowed by every mark so far),
      which visited positions are kept, and what each looked like when visited. */
  datatype Sweep = Sweep(agent: Agent, keep: seq<bool>, visited: seq<Sentence>)

  /** Visit position `|w.keep|` as it stands now: when its mine query is truthy
      mark its cells mines and drop it; else when its safe query is truthy mark
      them safe and drop it; else keep it. An empty answer is not truthy, so
      exactly the resolvable sentences are dropped. */
  function Visit(w: Sweep): (r: Sweep)
    requires |w.keep| == |w.visited| < |w.agent.knowledge|
    ensures var s := w.agent.knowledge[|w.keep|];
      && r.keep == w.keep + [!Resolvable(s)] && r.visited == w.visited + [s]
      && (Resolvable(s) && |s.cells| == s.count ==> r.agent == MarkMines(w.agent, s.cells))
      && (Resolvable(s) && |s.cells| != s.count ==> r.agent == MarkSafes(w.agent, s.cells))
      && (!Resolvable(s) ==> r.agent == w.agent)
    ensures SameFrame(w.agent, r.agent) && |r.agent.knowledge| == |w.agent.knowledge|
    ensures var s := w.agent.knowledge[|w.keep|];
      && r.agent.mines == w.agent.mines + MinesMarked(s, !Resolvable(s))
      && r.agent.safes == w.agent.safes + SafesMarked(s, !Resolvable(s))
      && forall k :: 0 <= k < |w.agent.knowledge| ==>
           r.agent.knowledge[k] == VisitEffect(w.agent.knowledge[k], s, !Resolvable(s))
  {
    var s := w.agent.knowledge[|w.keep|];
    if Truthy(KnownMines(s)) then Sweep(MarkMines(w.agent, s.cells), w.keep + [false], w.visited + [s])
    else if Truthy(KnownSafeCells(s)) then Sweep(MarkSafes(w.agent, s.cells), w.keep + [false], w.visited + [s])
    else Sweep(w.agent, w.keep + [true], w.visited + [s])
  }

  /** What the sweep from `w` on has done once it stands at `r`: each
      position visited since `w` holds its sentence in `w` narrowed by the
      marks of the visits before it, and is kept exactly when it is then not
      resolvable; every sentence is narrowed by the marks of all those visits;
      the known mines and safes have grown by exactly the marked cells. */
  predicate SweptFrom(w: Sweep, r: Sweep)
    requires |w.keep| == |w.visited| <= |w.agent.knowledge|
  {
    && SameFrame(w.agent, r.agent) && |r.agent.knowledge| == |w.agent.knowledge|
    && |r.keep| == |r.visited| == |w.agent.knowledge|
    && r.keep[..|w.keep|] == w.keep && r.visited[..|w.visited|] == w.visited
    && (forall i :: |w.keep| <= i < |r.keep| ==>
          && r.visited[i] == Replay(w.agent.knowledge[i], r.visited, r.keep, |w.keep|, i)
          && (r.keep[i] <==> !Resolvable(r.visited[i])))
    && (forall k :: 0 <= k < |w.agent.knowledge| ==>
          r.agent.knowledge[k] == Replay(w.agent.knowledge[k], r.visited, r.keep, |w.keep|, |r.keep|))
    && r.agent.mines == w.agent.mines + DroppedMines(r.visited, r.keep, |w.keep|, |r.keep|)
    && r.agent.safes == w.agent.safes + DroppedSafes(r.visited, r.keep, |w.keep|, |r.keep|)
  }

  /** The sweep from position `|w.keep|` on. */
  function SweepFrom(w: Sweep): (r: Sweep)
    requires |w.keep| == |w.visited| <= |w.agent.knowledge|
    ensures SweptFrom(w, r)
    decreases |w.agent.knowledge| - |w.keep|
  {
    if |w.keep| == |w.agent.knowledge| then w
    else
      var next := Visit(w);
      var r := SweepFrom(next);
      SweptCompose(w, r);
      r
  }

  /** One visit followed by the rest of the sweep is the sweep from the visit's position. */
  lemma SweptCompose(w: Sweep, r: Sweep)
    requires |w.keep| == |w.visited| < |w.agent.knowledge|
    requires SweptFrom(Visit(w), r)
    ensures SweptFrom(w, r)
  {
    VisitPrefix(w, r);
    ComposeVisited(w, r);
    ComposeKnowledge(w, r);
    ComposeMines(w, r);
    ComposeSafes(w, r);
  }

  /** After the sweep, the record holds the visit of position `|w.keep|` right after `w`'s own. */
  lemma VisitPrefix(w: Sweep, r: Sweep)
    requires |w.keep| == |w.visited| < |w.agent.knowledge|
    requires SweptFrom(Visit(w), r)
    ensures var j := |w.keep|; var s := w.agent.knowledge[j];
      && j < |r.keep| == |r.visited|
      && r.keep[j] == !Resolvable(s) && r.visited[j] == s
      && r.keep[..j] == w.keep && r.visited[..j] == w.visited
  {
    var j := |w.keep|;
    var next := Visit(w);
    assert r.keep[..j + 1] == next.keep && r.visited[..j + 1] == next.visited;
    assert r.keep[j] == r.keep[..j + 1][j] && r.visited[j] == r.visited[..j + 1][j];
    assert r.keep[..j] == r.keep[..j + 1][..j] && r.visited[..j] == r.visited[..j + 1][..j];
  }

  /** The visit record part of `SweptCompose`. */
  lemma ComposeVisited(w: Sweep, r: Sweep)
    requires |w.keep| == |w.visited| < |w.agent.knowledge|
    requires SweptFrom(Visit(w), r)
    ensures forall i :: |w.keep| <= i < |r.keep| ==>
              && r.visited[i] == Replay(w.agent.knowledge[i], r.visited, r.keep, |w.keep|, i)
              && (r.keep[i] <==> !Resolvable(r.visited[i]))
  {
    var j := |w.keep|;
    assert r.keep[j] == r.keep[..j + 1][j] && r.visited[j] == r.visited[..j + 1][j];
    forall i | j < i < |r.keep|
      ensures r.visited[i] == Replay(w.agent.knowledge[i], r.visited, r.keep, j, i)
    {
      ReplayShift(w.agent.knowledge[i], r.visited, r.keep, j, i);
    }
  }

  /** The sentences part of `SweptCompose`. */
  lemma ComposeKnowledge(w: Sweep, r: Sweep)
    requires |w.keep| == |w.visited| < |w.agent.knowledge|
    requires SweptFrom(Visit(w), r)
    ensures forall k :: 0 <= k < |w.agent.knowledge| ==>
              r.agent.knowledge[k] == Replay(w.agent.knowledge[k], r.visited, r.keep, |w.keep|, |r.keep|)
  {
    forall k | 0 <= k < |w.agent.knowledge|
      ensures r.agent.knowledge[k] == Replay(w.agent.knowledge[k], r.visited, r.keep, |w.keep|, |r.keep|)
    {
      ComposeSentence(w, r, k);
    }
  }

  /** The sentences part of `SweptCompose`, at one position `k`. */
  lemma ComposeSentence(w: Sweep, r: Sweep, k: nat)
    requires |w.keep| == |w.visited| < |w.agent.knowledge|
    requires SweptFrom(Visit(w), r)
    requires k < |w.agent.knowledge|
    ensures r.agent.knowledge[k] == Replay(w.agent.knowledge[k], r.visited, r.keep, |w.keep|, |r.keep|)
  {
    var j := |w.keep|;
    var s := w.agent.knowledge[j];
    VisitPrefix(w, r);
    var visited := Visit(w).agent.knowledge[k];
    assert visited == VisitEffect(w.agent.knowledge[k], s, !Resolvable(s));
    assert r.agent.knowledge[k] == Replay(visited, r.visited, r.keep, j + 1, |r.keep|);
    ReplayShift(w.agent.knowledge[k], r.visited, r.keep, j, |r.keep|);
  }

  /** Grouping the marks of one visit with those after it. */
  lemma Regroup(known: set<Cell>, marked: set<Cell>, later: set<Cell>, all: set<Cell>)
    requires all == marked + later
    ensures (known + marked) + later == known + all
  {
  }

  /** The known mines part of `SweptCompose`. */
  lemma ComposeMines(w: Sweep, r: Sweep)
    requires |w.keep| == |w.visited| < |w.agent.knowledge|
    requires SweptFrom(Visit(w), r)
    ensures r.agent.mines == w.agent.mines + DroppedMines(r.visited, r.keep, |w.keep|, |r.keep|)
  {
    var j := |w.keep|;
    var s := w.agent.knowledge[j];
    VisitPrefix(w, r);
    var marked := MinesMarked(s, !Resolvable(s));
    var later := DroppedMines(r.visited, r.keep, j + 1, |r.keep|);
    assert Visit(w).agent.mines == w.agent.mines + marked;
    DroppedMinesShift(r.visited, r.keep, j, |r.keep|);
    Regroup(w.agent.mines, marked, later, DroppedMines(r.visited, r.keep, j, |r.keep|));
  }

  /** The known safe cells part of `SweptCompose`. */
  lemma ComposeSafes(w: Sweep, r: Sweep)
    requires |w.keep| == |w.visited| < |w.agent.knowledge|
    requires SweptFrom(Visit(w), r)
    ensures r.agent.safes == w.agent.safes + DroppedSafes(r.visited, r.keep, |w.keep|, |r.keep|)
  {
    var j := |w.keep|;
    var s := w.agent.knowledge[j];
    VisitPrefix(w, r);
    var marked := SafesMarked(s, !Resolvable(s));
    var later := DroppedSafes(r.visited, r.keep, j + 1, |r.keep|);
    assert Visit(w).agent.safes == w.agent.safes + marked;
    DroppedSafesShift(r.visited, r.keep, j, |r.keep|);
    Regroup(w.agent.safes, marked, later, DroppedSafes(r.visited, r.keep, j, |r.keep|));
  }

  /** Visit the sentences in order; drop each that is resolvable when visited,
      after marking its cells all mines or all safe. The result keeps, in
      order, the positions kept at their visit, each narrowed by the marks of
      every visit. */
  function FinalKnowledge(a: Agent): (r: Agent)
    ensures SameFrame(a, r) && Grows(a, r)
    ensures |r.knowledge| <= |a.knowledge|
    ensures var w := SweepFrom(Sweep(a, [], [])); var n := |a.knowledge|;
      && (forall i :: 0 <= i < n ==>
            && w.visited[i] == Replay(a.knowledge[i], w.visited, w.keep, 0, i)
            && (w.keep[i] <==> !Resolvable(w.visited[i])))
      && r.knowledge == Select(seq(n, k requires 0 <= k < n => Replay(a.knowledge[k], w.visited, w.keep, 0, n)), w.keep)
      && r.mines == a.mines + DroppedMines(w.visited, w.keep, 0, n)
      && r.safes == a.safes + DroppedSafes(w.visited, w.keep, 0, n)
    ensures forall k :: 0 <= k < |a.knowledge| && a.knowledge[k].cells == {} ==> a.knowledge[k] in r.knowledge
  {
    var w := SweepFrom(Sweep(a, [], []));
    SweptList(a);
    EmptyKept(a);
    w.agent.(knowledge := Select(w.agent.knowledge, w.keep))
  }

  /** After the whole sweep, each sentence is its original narrowed by the marks of every visit. */
  lemma SweptList(a: Agent)
    ensures var w := SweepFrom(Sweep(a, [], [])); var n := |a.knowledge|;
      w.agent.knowledge == seq(n, k requires 0 <= k < n => Replay(a.knowledge[k], w.visited, w.keep, 0, n))
  {
  }

  /** A sentence with no cells is never resolvable, so the sweep keeps it unchanged. */
  lemma EmptyKept(a: Agent)
    ensures var w := SweepFrom(Sweep(a, [], []));
      forall k :: 0 <= k < |a.knowledge| && a.knowledge[k].cells == {} ==>
        a.knowledge[k] in Select(w.agent.knowledge, w.keep)
  {
    var w := SweepFrom(Sweep(a, [], []));
    forall k | 0 <= k < |a.knowledge| && a.knowledge[k].cells == {}
      ensures a.knowledge[k] in Select(w.agent.knowledge, w.keep)
    {
      ReplayEmpty(a.knowledge[k], w.visited, w.keep, 0, k);
      ReplayEmpty(a.knowledge[k], w.visited, w.keep, 0, |w.keep|);
      assert w.keep[k];
    }
  }

  // ---------------------------------------------------------------------------
  // One click

  /** The clicked cell is recorded as a move and as safe. */
  function Click(a: Agent, cell: Cell): (r: Agent)
    ensures r.height == a.height && r.width == a.width
    ensures r.movesMade == a.movesMade + {cell}
    ensures r.safes == a.safes + {cell} && r.mines == a.mines
    ensures |r.knowledge| == |a.knowledge|
    ensures forall k :: 0 <= k < |a.knowledge| ==> r.knowledge[k] == MarkSafe(a.knowledge[k], cell)
    ensures Purged(r, {cell})
  {
    MarkCellSafe(a, cell).(movesMade := a.movesMade + {cell})
  }

  /** Append the click's sentence `added`, run the comparison loop, append the
      inferred sentences and remove repeats. The result has no repeats and
      holds exactly the sentences the loop left in the list or inferred; every
      new mark and every inference comes from cells of the list with `added`. */
  function Infer(a: Agent, added: Sentence): (r: Agent)
    ensures SameFrame(a, r) && Grows(a, r)
    ensures NoDup(r.knowledge)
    ensures var p := InferFrom(Pass(a.(knowledge := a.knowledge + [added]), []), 0);
      && r.mines == p.agent.mines && r.safes == p.agent.safes
      && forall s :: s in r.knowledge <==> s in p.agent.knowledge || s in p.inferred
    ensures r.mines <= a.mines + AllCells(a.knowledge + [added])
    ensures r.safes <= a.safes + AllCells(a.knowledge + [added])
    ensures added.cells == {} ==> added in r.knowledge
    ensures var p := InferFrom(Pass(a.(knowledge := a.knowledge + [added]), []), 0);
      r.knowledge == FirstOccurrences(p.agent.knowledge + p.inferred)
  {
    var p := InferFrom(Pass(a.(knowledge := a.knowledge + [added]), []), 0);
    var all := p.agent.knowledge + p.inferred;
    assert added.cells == {} ==> all[|a.knowledge|] == added;
    var r := p.agent.(knowledge := DelDuplicates(all));
    assert forall s :: s in r.knowledge <==> s in all by {
      forall s | s in all ensures s in r.knowledge {
        var i :| 0 <= i < |all| && all[i] == s;
      }
    }
    r
  }

  /** Learn from a click on `cell` that showed clue `n`. */
  function UpdateKnowledge(a: Agent, cell: Cell, n: int): (r: Agent)
    ensures r.height == a.height && r.width == a.width
    ensures r.movesMade == a.movesMade + {cell}
    ensures cell in r.safes
    ensures a.mines <= r.mines && a.safes <= r.safes
    ensures a.movesMade <= a.safes ==> r.movesMade <= r.safes
  {
    var clicked := Click(a, cell);
    FinalKnowledge(Infer(clicked, CellNeighbors(clicked, cell, n)))
  }

  /** A click whose on-board neighbours are all already resolved produces a sentence with no cells. */
  lemma ResolvedClickEmpty(a: Agent, cell: Cell, n: int)
    requires forall m :: InBlock(cell, m) && m != cell && InBounds(a.height, a.width, m) ==> m in a.safes || m in a.mines
    ensures CellNeighbors(Click(a, cell), cell, n) == Sentence({}, n - |BlockCells(cell) * a.mines|)
  {
    var added := CellNeighbors(Click(a, cell), cell, n);
    assert forall m :: m !in added.cells;
  }

  /** A click whose on-board neighbours are all already resolved still appends
      its sentence, with no cells, and that empty sentence survives the pass,
      the deduplication and the sweep. */
  lemma EmptyClickSentenceKept(a: Agent, cell: Cell, n: int)
    requires forall m :: InBlock(cell, m) && m != cell && InBounds(a.height, a.width, m) ==> m in a.safes || m in a.mines
    ensures Sentence({}, n - |BlockCells(cell) * a.mines|) in UpdateKnowledge(a, cell, n).knowledge
  {
    var clicked := Click(a, cell);
    ResolvedClickEmpty(a, cell, n);
    var added := CellNeighbors(clicked, cell, n);
    var merged := Infer(clicked, added);
    var k :| 0 <= k < |merged.knowledge| && merged.knowledge[k] == added;
    assert UpdateKnowledge(a, cell, n) == FinalKnowledge(merged);
  }
}

=== FILE: logic.dfy ===
/** The logical sentence of the game: "exactly `count` of `cells` are mines". */
module Logic {
  import opened Wrappers
  import opened Grid

  /** Equality is structural: same cells and same count. */
  datatype Sentence = Sentence(cells: set<Cell>, count: int)

  /** The sentence is true of the mine layout `M`. */
  predicate Holds(s: Sentence, M: set<Cell>) {
    |s.cells * M| == s.count
  }

  /** The cells that must all be mines: every cell, when there are as many cells as mines. */
  function KnownMines(s: Sentence): (r: Option<set<Cell>>)
    ensures r.Some? <==> |s.cells| == s.count
    ensures r.Some? ==> r.value == s.cells
  {
    if |s.cells| == s.count then Some(s.cells) else None
  }

  /** The cells that must all be safe: every cell, when the count is zero. */
  function KnownSafeCells(s: Sentence): (r: Option<set<Cell>>)
    ensures r.Some? <==> s.count == 0
    ensures r.Some? ==> r.value == s.cells
  {
    if s.count == 0 then Some(s.cells) else None
  }

  /** Truth value of a query answer in a conditional: neither `None` nor an empty set. */
  predicate Truthy(o: Option<set<Cell>>) {
    o.Some? && o.value != {}
  }

  /** Narrow the sentence by a cell now known to be a mine. */
  function MarkMine(s: Sentence, c: Cell): (r: Sentence)
    ensures r.cells == s.cells - {c}
    ensures c in s.cells ==> r.count == s.count - 1
    ensures c !in s.cells ==> r == s
    ensures |r.cells| - r.count == |s.cells| - s.count
  {
    if c in s.cells then Sentence(s.cells - {c}, s.count - 1) else s
  }

  /** Narrow the sentence by a cell now known to be safe. */
  function MarkSafe(s: Sentence, c: Cell): (r: Sentence)
    ensures r.cells == s.cells - {c}
    ensures r.count == s.count
    ensures c !in s.cells ==> r == s
  {
    Sentence(s.cells - {c}, s.count)
  }

  /** Narrowing by a whole set of mines at once. */
  function NarrowMines(s: Sentence, S: set<Cell>): (r: Sentence)
    ensures r.cells == s.cells - S
    ensures |r.cells| - r.count == |s.cells| - s.count
  {
    assert s.cells == (s.cells - S) + s.cells * S;
    Sentence(s.cells - S, s.count - |s.cells * S|)
  }

  /** Narrowing by a whole set of safe cells at once. */
  function NarrowSafes(s: Sentence, S: set<Cell>): (r: Sentence)
    ensures r.cells == s.cells - S
    ensures r.count == s.count
  {
    Sentence(s.cells - S, s.count)
  }

  /** Marking the cells of `S` one at a time, starting with `c`, ends where
      marking them all at once does. */
  lemma NarrowMinesStep(s: Sentence, c: Cell, S: set<Cell>)
    requires c in S
    ensures NarrowMines(MarkMine(s, c), S - {c}) == NarrowMines(s, S)
  {
    var rest := (s.cells - {c}) * (S - {c});
    if c in s.cells {
      assert s.cells * S == rest + {c};
    } else {
      assert s.cells * S == rest;
    }
  }

  lemma NarrowSafesStep(s: Sentence, c: Cell, S: set<Cell>)
    requires c in S
    ensures NarrowSafes(MarkSafe(s, c), S - {c}) == NarrowSafes(s, S)
  {
    assert (s.cells - {c}) - (S - {c}) == s.cells - S;
  }

  /** Of a true sentence, the mine query answers exactly when all its cells are mines. */
  lemma KnownMinesExact(s: Sentence, M: set<Cell>)
    requires Holds(s, M)
    ensures KnownMines(s).Some? <==> s.cells <= M
  {
    var hit := s.cells * M;
    assert s.cells == hit + (s.cells - M);
    if s.cells <= M {
      assert hit == s.cells;
    }
  }

  /** Of a true sentence, the safe query answers exactly when none of its cells is a mine. */
  lemma KnownSafeCellsExact(s: Sentence, M: set<Cell>)
    requires Holds(s, M)
    ensures KnownSafeCells(s).Some? <==> s.cells !! M
  {
    if s.count == 0 {
      assert s.cells * M == {};
      forall x | x in s.cells ensures x !in M {
        assert x !in s.cells * M;
      }
    } else {
      var x :| x in s.cells * M;
    }
  }

  /** Removing a cell of a true sentence as a mine keeps it true exactly when the cell is a mine. */
  lemma MarkMineHolds(s: Sentence, c: Cell, M: set<Cell>)
    requires Holds(s, M) && c in s.cells
    ensures Holds(MarkMine(s, c), M) <==> c in M
  {
    if c in M {
      assert s.cells * M == (s.cells - {c}) * M + {c};
    } else {
      assert s.cells * M == (s.cells - {c}) * M;
    }
  }

  /** Removing a cell of a true sentence as safe keeps it true exactly when the cell is not a mine. */
  lemma MarkSafeHolds(s: Sentence, c: Cell, M: set<Cell>)
    requires Holds(s, M) && c in s.cells
    ensures Holds(MarkSafe(s, c), M) <==> c !in M
  {
    if c in M {
      assert s.cells * M == (s.cells - {c}) * M + {c};
    } else {
      assert s.cells * M == (s.cells - {c}) * M;
    }
  }

  /** Narrowing a true sentence by known mines keeps it true. */
  lemma NarrowMinesHolds(s: Sentence, S: set<Cell>, M: set<Cell>)
    requires Holds(s, M) && S <= M
    ensures Holds(NarrowMines(s, S), M)
  {
    assert s.cells * M == (s.cells - S) * M + s.cells * S;
  }

  /** Narrowing a true sentence by known safe cells keeps it true. */
  lemma NarrowSafesHolds(s: Sentence, S: set<Cell>, M: set<Cell>)
    requires Holds(s, M) && S !! M
    ensures Holds(NarrowSafes(s, S), M)
  {
    assert s.cells * M == (s.cells - S) * M;
  }

  /** Subset inference: when `small`'s cells lie inside `big`'s, the cells
      `big` has beyond `small` hold `big.count - small.count` mines. */
  lemma DifferenceHolds(big: Sentence, small: Sentence, M: set<Cell>)
    requires Holds(big, M) && Holds(small, M) && small.cells <= big.cells
    ensures Holds(Sentence(big.cells - small.cells, big.count - small.count), M)
  {
    assert big.cells * M == (big.cells - small.cells) * M + small.cells * M;
  }
}

=== FILE: moves.dfy ===
/** Choosing the agent's next click. */
module Moves {
  import opened Wrappers
  import opened Grid
  import opened KnowledgeBase

  /** On-board cells neither clicked nor known to be mines. */
  function Candidates(a: Agent): set<Cell> {
    set i, j | 0 <= i < a.height && 0 <= j < a.width && (i, j) !in a.movesMade && (i, j) !in a.mines :: (i, j)
  }

  /** A known safe cell not yet clicked, if there is one; which one is left open. */
  method SafeMove(a: Agent) returns (r: Option<Cell>)
    ensures r.None? <==> a.safes <= a.movesMade
    ensures r.Some? ==> r.value in a.safes && r.value !in a.movesMade
  {
    var possible := a.safes - a.movesMade;
    if |possible| == 0 {
      assert forall c :: c in a.safes ==> c in a.movesMade || c in possible;
      return None;
    }
    var c :| c in possible;
    return Some(c);
  }

  /** The random fallback as written: one draw `drawn`, offered only if it is
      neither clicked nor a known mine. */
  function RandomMove(a: Agent, drawn: Cell): (r: Option<Cell>)
    requires InBounds(a.height, a.width, drawn)
    ensures r.Some? <==> drawn in Candidates(a)
    ensures r.Some? ==> r.value == drawn
  {
    if drawn !in a.movesMade && drawn !in a.mines then Some(drawn) else None
  }

  /** The single draw can answer "no move" while unclicked, unflagged cells remain:
      on a 1x2 board with (0, 0) clicked, drawing (0, 0) again gives `None`
      although (0, 1) is still open. */
  lemma RandomMoveMissesCandidate()
    ensures var a := NewAgent(1, 2).(movesMade := {(0, 0)}, safes := {(0, 0)});
            (0, 1) in Candidates(a) && RandomMove(a, (0, 0)).None?
  {
  }

  /** The random fallback as intended: pick among all remaining candidates, and
      answer "no move" only when there are none. */
  method RandomCandidate(a: Agent) returns (r: Option<Cell>)
    ensures r.None? <==> Candidates(a) == {}
    ensures r.Some? ==> r.value in Candidates(a)
  {
    var open := Candidates(a);
    if open == {} {
      return None;
    }
    var c :| c in open;
    return Some(c);
  }

  /** The move policy as written: a known safe cell first, else the single
      random draw `drawn`; "no move" whenever the draw hits a clicked cell or a
      known mine, even while other candidates remain. */
  method NextMoveAsWritten(a: Agent, drawn: Cell) returns (r: Option<Cell>)
    requires InBounds(a.height, a.width, drawn)
    ensures r.None? <==> a.safes <= a.movesMade && drawn !in Candidates(a)
    ensures r.Some? ==> r.value !in a.movesMade
    ensures r.Some? && !(a.safes <= a.movesMade) ==> r.value in a.safes
    ensures a.safes <= a.movesMade ==> r == RandomMove(a, drawn)
  {
    r := SafeMove(a);
    if r.None? {
      r := RandomMove(a, drawn);
    }
  }

  /** The move policy as intended: a known safe cell first, else a remaining candidate. */
  method NextMove(a: Agent) returns (r: Option<Cell>)
    ensures r.None? <==> a.safes <= a.movesMade && Candidates(a) == {}
    ensures r.Some? ==> r.value !in a.movesMade
    ensures r.Some? && !(a.safes <= a.movesMade) ==> r.value in a.safes
    ensures r.Some? && a.safes !! a.mines ==> r.value !in a.mines
    ensures r.Some? ==> InBounds(a.height, a.width, r.value) || r.value in a.safes
  {
    r := SafeMove(a);
    if r.None? {
      r := RandomCandidate(a);
    }
  }
}

=== FILE: seqs.dfy ===
/** Generic facts about sequences used by the board and the knowledge base. */
module Seqs {

  /** The set of elements of `s`. */
  function Elems<T>(s: seq<T>): set<T> {
    set x | x in s
  }

  /** No element occurs twice in `s`. */
  predicate NoDup<T(==)>(s: seq<T>) {
    forall i, j :: 0 <= i < j < |s| ==> s[i] != s[j]
  }

  /** Number of positions of `s` whose element lies in `S`: what a loop that
      increments a counter once per hit computes. */
  function CountIn<T>(s: seq<T>, S: set<T>): nat {
    if |s| == 0 then 0 else (if s[0] in S then 1 else 0) + CountIn(s[1..], S)
  }

  /** The elements of `s` at the positions `keep` marks, in order. */
  function Select<T>(s: seq<T>, keep: seq<bool>): (r: seq<T>)
    requires |keep| == |s|
    ensures |r| <= |s|
    ensures forall x :: x in r ==> x in s
    ensures forall i :: 0 <= i < |s| && keep[i] ==> s[i] in r
  {
    if |s| == 0 then []
    else
      var rest := Select(s[1..], keep[1..]);
      assert forall i :: 1 <= i < |s| ==> s[i] == s[1..][i - 1] && keep[i] == keep[1..][i - 1];
      if keep[0] then [s[0]] + rest else rest
  }

  /** The tail of a duplicate-free sequence is duplicate-free and lacks the head. */
  lemma NoDupTail<T>(s: seq<T>)
    requires NoDup(s) && |s| > 0
    ensures NoDup(s[1..])
    ensures Elems(s) == {s[0]} + Elems(s[1..])
    ensures s[0] !in Elems(s[1..])
  {
    var t := s[1..];
    forall i, j | 0 <= i < j < |t| ensures t[i] != t[j] {
      assert t[i] == s[i + 1] && t[j] == s[j + 1];
    }
    assert s == [s[0]] + t;
    forall j | 0 <= j < |t| ensures t[j] != s[0] {
      assert t[j] == s[j + 1];
    }
  }

  /** Counting the hits of a duplicate-free sequence is the size of the set of hits. */
  lemma {:induction false} CountInDistinct<T>(s: seq<T>, S: set<T>)
    requires NoDup(s)
    ensures CountIn(s, S) == |Elems(s) * S|
  {
    if |s| == 0 {
      assert Elems(s) == {};
    } else {
      var t := s[1..];
      NoDupTail(s);
      CountInDistinct(t, S);
      HeadHits(s[0], Elems(t), S);
    }
  }

  /** Adding a new element `x` to a set adds one hit exactly when `x` is a hit. */
  lemma HeadHits<T>(x: T, E: set<T>, S: set<T>)
    requires x !in E
    ensures |({x} + E) * S| == |E * S| + (if x in S then 1 else 0)
  {
    var hits := E * S;
    assert x !in hits;
    if x in S {
      assert ({x} + E) * S == hits + {x};
    } else {
      assert ({x} + E) * S == hits;
    }
  }

  /** A duplicate-free sequence has as many elements as its length. */
  lemma {:induction false} ElemsDistinctCard<T>(s: seq<T>)
    requires NoDup(s)
    ensures |Elems(s)| == |s|
  {
    CountInDistinct(s, Elems(s));
    CountAll(s, Elems(s));
    assert Elems(s) * Elems(s) == Elems(s);
  }

  /** When every element is a hit, every position counts. */
  lemma {:induction false} CountAll<T>(s: seq<T>, S: set<T>)
    requires Elems(s) <= S
    ensures CountIn(s, S) == |s|
  {
    if |s| > 0 {
      assert s[0] in Elems(s);
      assert Elems(s[1..]) <= Elems(s) by {
        forall x | x in s[1..] ensures x in s { }
      }
      CountAll(s[1..], S);
    }
  }

  /** Extending a prefix of a duplicate-free sequence by one position adds
      one hit exactly when the new element is a hit. */
  lemma PrefixHits<T>(s: seq<T>, k: nat, S: set<T>)
    requires NoDup(s) && k < |s|
    ensures |Elems(s[..k + 1]) * S| == |Elems(s[..k]) * S| + (if s[k] in S then 1 else 0)
  {
    assert s[..k + 1] == s[..k] + [s[k]];
    assert Elems(s[..k + 1]) == {s[k]} + Elems(s[..k]);
    assert s[k] !in Elems(s[..k]) by {
      forall j | 0 <= j < k ensures s[..k][j] != s[k] {
        assert s[..k][j] == s[j];
      }
    }
    HeadHits(s[k], Elems(s[..k]), S);
  }
}

=== FILE: soundness.dfy ===
/** Soundness of the knowledge base with respect to a true board: if every
    clue the agent receives is the board's real clue for a clicked non-mine
    cell, then what it knows stays true of the board. */
module Soundness {
  import opened Grid
  import opened Game
  import opened Logic
  import opened KnowledgeBase

  /** The agent's knowledge is true of the mine layout `M`: its mines are mines,
      its safe cells are not, and every sentence holds. */
  predicate Consistent(a: Agent, M: set<Cell>) {
    && a.mines <= M
    && a.safes !! M
    && forall s :: s in a.knowledge ==> Holds(s, M)
  }

  predicate PassConsistent(p: Pass, M: set<Cell>) {
    Consistent(p.agent, M) && forall s :: s in p.inferred ==> Holds(s, M)
  }

  lemma NewAgentConsistent(height: int, width: int, M: set<Cell>)
    ensures Consistent(NewAgent(height, width), M)
  {
  }

  /** Knowledge true of a layout never calls one cell both mine and safe. */
  lemma ConsistentDisjoint(a: Agent, M: set<Cell>)
    requires Consistent(a, M)
    ensures a.mines !! a.safes
  {
    forall c | c in a.mines ensures c !in a.safes {
      assert c in M;
    }
  }

  lemma MarkMinesConsistent(a: Agent, S: set<Cell>, M: set<Cell>)
    requires Consistent(a, M) && S <= M
    ensures Consistent(MarkMines(a, S), M)
  {
    var r := MarkMines(a, S);
    forall s | s in r.knowledge ensures Holds(s, M) {
      var k :| 0 <= k < |r.knowledge| && r.knowledge[k] == s;
      NarrowMinesHolds(a.knowledge[k], S, M);
    }
  }

  lemma MarkSafesConsistent(a: Agent, S: set<Cell>, M: set<Cell>)
    requires Consistent(a, M) && S !! M
    ensures Consistent(MarkSafes(a, S), M)
  {
    var r := MarkSafes(a, S);
    forall s | s in r.knowledge ensures Holds(s, M) {
      var k :| 0 <= k < |r.knowledge| && r.knowledge[k] == s;
      NarrowSafesHolds(a.knowledge[k], S, M);
    }
  }

  lemma MarkCellSafeConsistent(a: Agent, c: Cell, M: set<Cell>)
    requires Consistent(a, M) && c !in M
    ensures Consistent(MarkCellSafe(a, c), M)
  {
    var r := MarkCellSafe(a, c);
    forall s | s in r.knowledge ensures Holds(s, M) {
      var k :| 0 <= k < |r.knowledge| && r.knowledge[k] == s;
      if c in a.knowledge[k].cells {
        MarkSafeHolds(a.knowledge[k], c, M);
      }
    }
  }

  /** The sentence built from a truthful clue of a clicked non-mine cell is true. */
  lemma NeighborsHold(a: Agent, b: Board, cell: Cell)
    requires Consistent(a, b.mines) && ValidBoard(b)
    requires a.height == b.height && a.width == b.width && cell !in b.mines
    ensures Holds(CellNeighbors(a, cell, |MinesAround(b, cell)|), b.mines)
  {
    var around := MinesAround(b, cell);
    var n := CellNeighbors(a, cell, |around|);
    assert n.cells * b.mines == around - a.mines;
    assert BlockCells(cell) * a.mines == around * a.mines;
    assert around == (around - a.mines) + around * a.mines;
  }

  lemma ResolveConsistent(p: Pass, diff: set<Cell>, big: int, small: int, M: set<Cell>)
    requires PassConsistent(p, M) && Holds(Sentence(diff, big - small), M)
    ensures PassConsistent(Resolve(p, diff, big, small), M)
  {
    var d := Sentence(diff, big - small);
    if big == small {
      KnownSafeCellsExact(d, M);
      MarkSafesConsistent(p.agent, diff, M);
    } else if |diff| == big - small {
      KnownMinesExact(d, M);
      MarkMinesConsistent(p.agent, diff, M);
    }
  }

  /** Every step of the comparison loop keeps the pass true of the board:
      each difference it resolves or infers holds by subset inference. */
  lemma CompareConsistent(p: Pass, s: Sentence, n: Sentence, M: set<Cell>)
    requires PassConsistent(p, M) && Holds(s, M) && Holds(n, M)
    ensures PassConsistent(Compare(p, s, n), M)
  {
    if s == n {
    } else if n.cells <= s.cells {
      DifferenceHolds(s, n, M);
      ResolveConsistent(p, s.cells - n.cells, s.count, n.count, M);
    } else if s.cells <= n.cells {
      DifferenceHolds(n, s, M);
      ResolveConsistent(p, n.cells - s.cells, n.count, s.count, M);
    }
  }

  lemma {:induction false} InferConsistent(p: Pass, i: nat, M: set<Cell>)
    requires 0 < |p.agent.knowledge| && i <= |p.agent.knowledge|
    requires PassConsistent(p, M)
    ensures PassConsistent(InferFrom(p, i), M)
    decreases |p.agent.knowledge| - i
  {
    if i < |p.agent.knowledge| {
      var ks := p.agent.knowledge;
      CompareConsistent(p, ks[i], ks[|ks| - 1], M);
      InferConsistent(Compare(p, ks[i], ks[|ks| - 1]), i + 1, M);
    }
  }

  lemma VisitConsistent(w: Sweep, M: set<Cell>)
    requires |w.keep| == |w.visited| < |w.agent.knowledge|
    requires Consistent(w.agent, M)
    ensures Consistent(Visit(w).agent, M)
  {
    var s := w.agent.knowledge[|w.keep|];
    assert Holds(s, M);
    if Truthy(KnownMines(s)) {
      KnownMinesExact(s, M);
      MarkMinesConsistent(w.agent, s.cells, M);
    } else if Truthy(KnownSafeCells(s)) {
      KnownSafeCellsExact(s, M);
      MarkSafesConsistent(w.agent, s.cells, M);
    }
  }

  lemma {:induction false} SweepConsistent(w: Sweep, M: set<Cell>)
    requires |w.keep| == |w.visited| <= |w.agent.knowledge|
    requires Consistent(w.agent, M)
    ensures Consistent(SweepFrom(w).agent, M)
    decreases |w.agent.knowledge| - |w.keep|
  {
    if |w.keep| < |w.agent.knowledge| {
      VisitConsistent(w, M);
      SweepConsistent(Visit(w), M);
    }
  }

  lemma FinalKnowledgeConsistent(a: Agent, M: set<Cell>)
    requires Consistent(a, M)
    ensures Consistent(FinalKnowledge(a), M)
  {
    SweepConsistent(Sweep(a, [], []), M);
  }

  lemma InferConsistentAll(a: Agent, added: Sentence, M: set<Cell>)
    requires Consistent(a, M) && Holds(added, M)
    ensures Consistent(Infer(a, added), M)
  {
    var p0 := Pass(a.(knowledge := a.knowledge + [added]), []);
    assert PassConsistent(p0, M);
    InferConsistent(p0, 0, M);
  }

  /** One click on a non-mine cell of a valid board, told that cell's true
      clue, keeps the agent's knowledge true of the board; in particular no
      cell is ever both a known mine and a known safe cell. */
  lemma UpdateKnowledgeSound(a: Agent, b: Board, cell: Cell)
    requires ValidBoard(b) && a.height == b.height && a.width == b.width
    requires cell !in b.mines
    requires Consistent(a, b.mines)
    ensures Consistent(UpdateKnowledge(a, cell, |MinesAround(b, cell)|), b.mines)
    ensures UpdateKnowledge(a, cell, |MinesAround(b, cell)|).mines !! UpdateKnowledge(a, cell, |MinesAround(b, cell)|).safes
  {
    var M := b.mines;
    MarkCellSafeConsistent(a, cell, M);
    var clicked := Click(a, cell);
    var added := CellNeighbors(clicked, cell, |MinesAround(b, cell)|);
    NeighborsHold(clicked, b, cell);
    InferConsistentAll(clicked, added, M);
    FinalKnowledgeConsistent(Infer(clicked, added), M);
    ConsistentDisjoint(FinalKnowledge(Infer(clicked, added)), M);
  }
}

=== FILE: trace.dfy ===
/** A worked update on a 1x3 row, starting from a stated knowledge list and
    a stated new sentence (not built from a click), showing two things the
    update does not guarantee: a sentence inferred in the comparison loop can still mention a
    cell the same loop later marked safe, and the sweep can keep a sentence
    that its own later marks made resolvable. */
module Trace {
  import opened Seqs
  import opened Grid
  import opened Logic
  import opened Dedup
  import opened KnowledgeBase

  /** "One mine among (0,0), (0,1), (0,2)" and "no mine among (0,0), (0,1)", nothing resolved yet. */
  function Start(): Agent {
    Agent(1, 3, {}, {}, {}, [Sentence({(0, 0), (0, 1), (0, 2)}, 1), Sentence({(0, 0), (0, 1)}, 0)])
  }

  /** The new sentence appended to the list: "no mine at (0,0)". */
  function Added(): Sentence {
    Sentence({(0, 0)}, 0)
  }

  /** The pass as the loop starts: the new sentence appended, nothing inferred. */
  function P0(): Pass {
    Pass(Start().(knowledge := Start().knowledge + [Added()]), [])
  }

  /** After comparing the first sentence. */
  function P1(): Pass {
    Pass(P0().agent, [Sentence({(0, 1), (0, 2)}, 1)])
  }

  /** After comparing the second sentence, which marks (0,1) safe. */
  function P2(): Pass {
    Pass(Start().(safes := {(0, 1)},
                  knowledge := [Sentence({(0, 0), (0, 2)}, 1), Sentence({(0, 0)}, 0), Added()]),
         [Sentence({(0, 1), (0, 2)}, 1)])
  }

  /** `{(0,0)} = 0` inside `{(0,0), (0,1), (0,2)} = 1` leaves `{(0,1), (0,2)} = 1`, which neither query resolves. */
  lemma CompareFirst()
    ensures Compare(P0(), P0().agent.knowledge[0], Added()) == P1()
  {
    var d := {(0, 1), (0, 2)};
    assert {(0, 0), (0, 1), (0, 2)} - {(0, 0)} == d;
    assert {(0, 0)} <= {(0, 0), (0, 1), (0, 2)};
    assert |d| == 2;
  }

  /** `{(0,0)} = 0` inside `{(0,0), (0,1)} = 0` leaves `{(0,1)} = 0`: (0,1) is marked safe. */
  lemma CompareSecond()
    ensures Compare(P1(), P1().agent.knowledge[1], Added()) == P2()
  {
    var d := {(0, 1)};
    assert {(0, 0), (0, 1)} - {(0, 0)} == d;
    assert {(0, 0)} <= {(0, 0), (0, 1)};
    var r := MarkSafes(P1().agent, d);
    assert {(0, 0), (0, 1), (0, 2)} - d == {(0, 0), (0, 2)};
    assert {(0, 0), (0, 1)} - d == {(0, 0)};
    assert {(0, 0)} - d == {(0, 0)};
    assert r.knowledge == P2().agent.knowledge;
  }

  /** The whole loop: the last position is the new sentence itself and is skipped. */
  lemma LoopTrace()
    ensures InferFrom(P0(), 0) == P2()
  {
    CompareFirst();
    CompareSecond();
    assert InferFrom(P0(), 0) == InferFrom(P1(), 1);
    assert InferFrom(P1(), 1) == InferFrom(P2(), 2);
    assert Compare(P2(), Added(), Added()) == P2();
    assert InferFrom(P2(), 2) == InferFrom(P2(), 3);
  }

  /** Removing repeats drops the second copy of `{(0,0)} = 0`. */
  lemma DedupTrace()
    ensures FirstOccurrences(P2().agent.knowledge + P2().inferred)
         == [Sentence({(0, 0), (0, 2)}, 1), Sentence({(0, 0)}, 0), Sentence({(0, 1), (0, 2)}, 1)]
  {
    var all := P2().agent.knowledge + P2().inferred;
    assert {(0, 0), (0, 2)} != {(0, 0)} by { assert (0, 2) !in {(0, 0)}; }
    assert {(0, 1), (0, 2)} != {(0, 0)} by { assert (0, 1) !in {(0, 0)}; }
    assert {(0, 1), (0, 2)} != {(0, 0), (0, 2)} by { assert (0, 1) !in {(0, 0), (0, 2)}; }
    assert all[..0] == [] && all[..1] == [all[0]] && all[..2] == [all[0], all[1]];
    assert all[..3] == [all[0], all[1], all[2]];
    assert FirstMask(all) == [true, true, false, true];
    var mask := [true, true, false, true];
    assert Select(all[3..], mask[3..]) == [all[3]];
    assert Select(all[2..], mask[2..]) == [all[3]] by {
      assert all[2..][1..] == all[3..] && mask[2..][1..] == mask[3..];
    }
    assert Select(all[1..], mask[1..]) == [all[1], all[3]] by {
      assert all[1..][1..] == all[2..] && mask[1..][1..] == mask[2..];
    }
    assert Select(all, mask) == [all[0], all[1], all[3]];
  }

  /** The list after the comparison loop and the removal of repeats: comparing
      with the first sentence infers `{(0,1), (0,2)} = 1`; comparing with the
      second marks (0,1) safe, which narrows the list but not that inference. */
  lemma InferTrace()
    ensures Infer(Start(), Added()) == Agent(1, 3, {}, {}, {(0, 1)},
      [Sentence({(0, 0), (0, 2)}, 1), Sentence({(0, 0)}, 0), Sentence({(0, 1), (0, 2)}, 1)])
  {
    LoopTrace();
    DedupTrace();
  }

  /** The list the sweep starts from. */
  function Merged(): Agent {
    Agent(1, 3, {}, {}, {(0, 1)},
      [Sentence({(0, 0), (0, 2)}, 1), Sentence({(0, 0)}, 0), Sentence({(0, 1), (0, 2)}, 1)])
  }

  /** The list once the second visit has marked (0,0) safe. */
  function Narrowed2(): Agent {
    Merged().(safes := {(0, 1), (0, 0)},
              knowledge := [Sentence({(0, 2)}, 1), Sentence({}, 0), Sentence({(0, 1), (0, 2)}, 1)])
  }

  /** `{(0,0), (0,2)} = 1` is kept. */
  lemma VisitFirst()
    ensures Visit(Sweep(Merged(), [], [])) == Sweep(Merged(), [true], [Merged().knowledge[0]])
  {
    assert |{(0, 0), (0, 2)}| == 2;
  }

  /** `{(0,0)} = 0` marks (0,0) safe and is dropped. */
  lemma VisitSecond()
    ensures Visit(Sweep(Merged(), [true], [Merged().knowledge[0]]))
         == Sweep(Narrowed2(), [true, false], [Merged().knowledge[0], Merged().knowledge[1]])
  {
    var c := {(0, 1), (0, 2)};
    assert {(0, 0), (0, 2)} - {(0, 0)} == {(0, 2)};
    assert c - {(0, 0)} == c;
    assert {(0, 0)} - {(0, 0)} == {};
    var marked := MarkSafes(Merged(), {(0, 0)});
    assert marked.knowledge == Narrowed2().knowledge;
  }

  /** `{(0,1), (0,2)} = 1` is kept. */
  lemma VisitThird()
    ensures Visit(Sweep(Narrowed2(), [true, false], [Merged().knowledge[0], Merged().knowledge[1]]))
         == Sweep(Narrowed2(), [true, false, true],
                  [Merged().knowledge[0], Merged().knowledge[1], Narrowed2().knowledge[2]])
  {
    assert |{(0, 1), (0, 2)}| == 2;
  }

  /** The sweep state once every position is visited. */
  function Visited3(): Sweep {
    Sweep(Narrowed2(), [true, false, true],
          [Merged().knowledge[0], Merged().knowledge[1], Narrowed2().knowledge[2]])
  }

  /** The three visits in turn. */
  lemma SweepRun()
    ensures SweepFrom(Sweep(Merged(), [], [])) == Visited3()
  {
    VisitFirst();
    VisitSecond();
    VisitThird();
    var w1 := Sweep(Merged(), [true], [Merged().knowledge[0]]);
    var w2 := Sweep(Narrowed2(), [true, false], [Merged().knowledge[0], Merged().knowledge[1]]);
    assert SweepFrom(Sweep(Merged(), [], [])) == SweepFrom(w1);
    assert SweepFrom(w1) == SweepFrom(w2);
    assert SweepFrom(w2) == SweepFrom(Visited3());
  }

  /** The kept positions are the first and the third. */
  lemma KeptTrace()
    ensures Select(Visited3().agent.knowledge, Visited3().keep)
         == [Sentence({(0, 2)}, 1), Sentence({(0, 1), (0, 2)}, 1)]
  {
    var ks := Visited3().agent.knowledge;
    var keep := Visited3().keep;
    assert Select(ks[2..], keep[2..]) == [ks[2]];
    assert Select(ks[1..], keep[1..]) == [ks[2]] by {
      assert ks[1..][1..] == ks[2..] && keep[1..][1..] == keep[2..];
    }
  }

  /** The sweep of that list: the first sentence is kept, the second marks
      (0,0) safe and is dropped, the third is kept. */
  lemma SweepTrace()
    ensures FinalKnowledge(Merged())
         == Agent(1, 3, {}, {}, {(0, 1), (0, 0)}, [Sentence({(0, 2)}, 1), Sentence({(0, 1), (0, 2)}, 1)])
  {
    SweepRun();
    KeptTrace();
  }

  /** After the update, (0,1) is a known safe cell yet a remaining sentence still mentions it. */
  lemma InferenceMentionsKnownSafe()
    ensures var r := UpdateStep();
      (0, 1) in r.safes && exists s :: s in r.knowledge && (0, 1) in s.cells
  {
    InferTrace();
    SweepTrace();
    assert Infer(Start(), Added()) == Merged();
    var r := UpdateStep();
    assert (0, 1) in r.knowledge[1].cells;
  }

  /** After the update, the first remaining sentence `{(0,2)} = 1` is resolvable
      (a single cell holding a mine) yet was kept. */
  lemma ResolvableSentenceKept()
    ensures var r := UpdateStep();
      exists s :: s in r.knowledge && Resolvable(s)
  {
    InferTrace();
    SweepTrace();
    assert Infer(Start(), Added()) == Merged();
    var r := UpdateStep();
    assert Resolvable(r.knowledge[0]);
  }

  /** The comparison loop and the sweep for this list and new sentence. */
  function UpdateStep(): Agent {
    FinalKnowledge(Infer(Start(), Added()))
  }
}

=== FILE: wrappers.dfy ===
/** The optional value the engine returns where the game logic answers `None` or a value. */
module Wrappers {

  datatype Option<+T> = None | Some(value: T)
}
